=== FILE: README.md ===
# SIP.js signalling core, modelled in Dafny

This project models three small SIP signalling state machines of SIP.js
as pure functions. Each takes a state and an input and returns the new
state, the events emitted (in order), the request or reply sent, or the
exception thrown.

- **Request correlator** (`SIP.Session.Request`, module `Request`). `send`
  checks the method and the owning session's status, then hands exactly one
  request to the session's dialog. `receiveResponse` sorts a status code
  into `progress` (1xx), `succeeded` (2xx) or `failed` (anything else). These
  are the response classes of section 7.2 of RFC 3261. The timeout,
  transport-error and dialog-error callbacks each emit a fixed `failed`
  payload and then notify the owning session.
- **Server reply guard** (`SIP.ServerContext`, module `ServerContext`). It
  picks an INVITE or non-INVITE server transaction from the request method.
  `progress`, `accept` and `reject` apply a default code and reject any
  code outside 1xx, 2xx or 3xx–6xx respectively. `reply` passes its
  arguments through unchecked.
- **Registration state machine** (`SIP.RegisterContext`, module
  `RegisterContext`). It tracks `registered`, `registered_before`, the CSeq
  (starting at 80), a fixed Call-ID and the refresh timer. It builds the
  un-REGISTER that removes bindings (section 10.2.2 of RFC 3261). It
  reacts to the transport closing and reconnecting, and to `close()`.

Module `StatusCodes` models the source's status-code patterns
`^1[0-9]{2}$` and `^2[0-9]{2}$` literally. It renders the code the way
JavaScript's `String(n)` does and tests the text against the pattern.
`StatusCodes.PatternIffRange` then proves this equal to the integer ranges
100..199 and 200..299. Module `Common` holds the shared option and
result types, the cause vocabulary and the method names.

The server guard and the registration machine follow the repository's
Jasmine specs. Where the specs leave a choice open, the model makes it as
follows:

- `progress` accepts 100..199. The specs accept 100 as a valid code
  (test/spec/SpecServerContext.js:89-97) and refuse 1..99 and 200..699
  (lines 80-87).
- The specs pin the upper bounds 199 and 299: `progress` refuses
  200..699 and `accept` refuses 300..699 (test/spec/SpecServerContext.js:85,
  131). No spec tries a code above 699. The model's bound 699 for `reject`
  is the top of the 6xx class of section 7.2 of RFC 3261.
- `onTransportClosed` calls `unregistered()`, which emits `unregistered`,
  when the agent was registered (test/spec/SpecRegisterContext.js:144-152).
- The specs pin the default extra headers `[]` for `accept` and `reject`
  (test/spec/SpecServerContext.js:122-125, 168-171). Only `progress`'s
  default headers are unpinned; the model defaults them the same way.
- The specs check only that `register()` installs a response, a timeout
  and a transport-error handler (test/spec/SpecRegisterContext.js:69-82).
  In the model, a 1xx answer changes nothing. A 2xx marks the agent
  registered and arms the refresh. Any other answer, a timeout or a
  transport error is a registration failure.
- The model clears the refresh timer on transport close. The specs do not
  pin this (see "Left out").
- An answer goes to the handlers that the last `register()` or
  `unregister()` installed. The specs check that `unregister()` installs
  its own handlers (test/spec/SpecRegisterContext.js:239-261).

## Model

| member | source | states |
|---|---|---|
| Request.Send | src/Session/Request.js:26-62 | Fails with the TypeError "Not enough arguments" exactly when no method is given. Fails with InvalidStateError (carrying the owner's status) exactly when the status is not one of 1XX_RECEIVED, WAITING_FOR_ANSWER, WAITING_FOR_ACK, CONFIRMED, TERMINATED, or is TERMINATED and the method is not BYE. Otherwise it hands one request to the dialog: the method, the extra headers (default `[]`) and the body (default null). |
| Request.HeadersOf | src/Session/Request.js:30 | The caller's extra headers are used as given, even an empty list. Without options or without headers the list is `[]`. |
| Request.BodyOf | src/Session/Request.js:32 | A body is passed on exactly when the caller gives a non-empty one, and then unchanged. A missing or empty body becomes null. |
| Request.SendAsWritten | src/Session/Request.js:47-52 | `send` as the file is written never sends. Whenever the status passes the first check, the unbound `C` throws a ReferenceError. |
| Request.SendAsWrittenRefusesEverySend | src/Session/Request.js:34-52 | The written and corrected `send` agree when the method is missing or the status fails the first check. Every call the corrected `send` accepts throws in the written one. |
| Request.ConfirmedByeWitness | src/Session/Request.js:50 | A BYE in a CONFIRMED session is sent by the corrected model but throws a ReferenceError as written. |
| Request.ReceiveResponse | src/Session/Request.js:67-94 | Emits exactly one event, from the remote side, carrying the response. It is `progress` iff the code is in 100..199, `succeeded` iff it is in 200..299, and `failed` iff it is in neither, with the cause the library maps that status code to (`StatusCause(code)`). |
| StatusCodes.PatternClass | src/Session/Request.js:70-93 | The source's classification by text pattern gives the provisional class iff the code is in 100..199, the success class iff in 200..299, and the failure class otherwise. |
| StatusCodes.PatternIffRange | src/Session/Request.js:71-78 | For any leading digit d in 1..9, the pattern `^d[0-9]{2}$` matches the decimal text of a code iff the code is in d00..d99. This includes negative codes and codes that are not three digits long. |
| StatusCodes.PatternClassIsClassify | src/Session/Request.js:70-93 | The pattern-based classification equals the closed-range classification for every integer code. |
| Request.FailureCauseDependsOnlyOnCode | src/Session/Request.js:85-91 | Two responses with the same status code that fail get the same cause. |
| Request.OnRequestTimeout | src/Session/Request.js:99-105 | Emits `failed` with originator system, no response and cause REQUEST_TIMEOUT, then notifies the owner once. |
| Request.OnTransportError | src/Session/Request.js:110-116 | Emits `failed` with originator system and cause CONNECTION_ERROR, then notifies the owner once. |
| Request.OnDialogError | src/Session/Request.js:121-128 | Emits `failed` with originator remote, the response and cause DIALOG_ERROR, then forwards that same response to the owner. |
| Request.FailureSourcesAreDistinct | src/Session/Request.js:99-128 | The timeout, transport-error and dialog-error callbacks carry three different causes. Only the timeout and the transport error are system-originated. |
| ServerContext.New | test/spec/SpecServerContext.js:35-69 | Builds an InviteServerTransaction(request, ua) iff the method is INVITE, and a NonInviteServerTransaction(request, ua) otherwise. Copies method, body and content type from the request. Starts with empty data. |
| ServerContext.CodeOf | test/spec/SpecServerContext.js:75-78 | The effective code is the caller's status code when one is given. Otherwise, with no options or no code, it is the operation's default. |
| ServerContext.CheckedArgs | test/spec/SpecServerContext.js:89-97 | With no options, the reply arguments are (default code, undefined, [], undefined). With options, they are the effective code, the caller's reason phrase and body, and the caller's extra headers or `[]`. So when the caller gives a code and headers, the four fields go through unchanged. |
| ServerContext.ReplyError.Message | test/spec/SpecServerContext.js:82-87 | The thrown TypeError's text is `Invalid statusCode: ` followed by the code in decimal, with a minus sign for a negative code. |
| ServerContext.MessageOfThreeDigitCode | test/spec/SpecServerContext.js:85-86 | For a code in 100..999 the message ends in exactly the code's three digits, most significant first. |
| ServerContext.MessageOfShortCode | test/spec/SpecServerContext.js:82-83 | For a code in 0..99 the message is the prefix followed by exactly the code's one or two decimal digits, most significant first. |
| ServerContext.Progress | test/spec/SpecServerContext.js:76-114 | Fails with "Invalid statusCode" carrying the code iff the effective code (default 180) is outside 100..199. Otherwise it returns the guard unchanged, replies with the checked arguments and emits `progress {code, response}`, where `response` is what `request.reply` returned. |
| ServerContext.Accept | test/spec/SpecServerContext.js:122-161 | Fails iff the effective code (default 200) is outside 200..299. With no options it replies (200, undefined, [], undefined). On success it returns the guard unchanged and emits `accepted {code, response: null}`. |
| ServerContext.Reject | test/spec/SpecServerContext.js:169-207 | Fails iff the effective code (default 480) is outside 300..699. On success it returns the guard unchanged and emits `rejected` then `failed`, both with the payload `{code, response: null, cause: reasonPhrase}`. |
| ServerContext.Reply | test/spec/SpecServerContext.js:215-230 | Passes the four fields to `request.reply` unchanged for any code, emits nothing and returns the guard unchanged. |
| ServerContext.OnRequestTimeout | test/spec/SpecServerContext.js:234-242 | Emits one `failed` with code 0, null response and cause REQUEST_TIMEOUT. |
| ServerContext.OnTransportError | test/spec/SpecServerContext.js:244-252 | Emits one `failed` with code 0, null response and cause CONNECTION_ERROR. |
| ServerContext.CheckedOperationsAreGuardedReplies | test/spec/SpecServerContext.js:90-225 | Whenever progress, accept or reject succeeds, it sends exactly what `reply` sends for the same options once the default code and headers are filled in. When the caller gives a code and headers, a successful operation sends exactly what `reply` sends for the caller's own options. |
| ServerContext.CheckedRangesPartitionStatusCodes | test/spec/SpecServerContext.js:81-190 | Every code in 100..699 is let through by exactly one of progress, accept and reject. No code outside 100..699 is let through by any of them. |
| ServerContext.SystemFailuresCarryNoStatusCode | test/spec/SpecServerContext.js:192-252 | Every `failed` that reject emits carries a code in 300..699. The `failed` from a timeout or transport error carries code 0. A listener can therefore tell the two apart by the code alone. |
| ServerContext.OperationsKeepTransaction | test/spec/SpecServerContext.js:35-69 | After `new ServerContext`, every successful progress, accept or reject, and every reply, keeps the transaction that was chosen: INVITE requests stay on an INVITE server transaction, all others on a non-INVITE one. |
| ServerContext.GuardedCodesMatchClientClassification | test/spec/SpecServerContext.js:90-190 | A code that progress, accept or reject lets through is classified by the receiving correlator as progress, succeeded or failed respectively. |
| RegisterContext.New | test/spec/SpecRegisterContext.js:40-58 | Sets cseq to 80 and registered to false. Copies registrar, expires and to_uri from the user agent's configuration. Keeps the given call_id and contact. Leaves registered_before undefined, no timer pending and no answer handlers installed. Points the user agent's registrationContext at the new context. |
| RegisterContext.Register | test/spec/SpecRegisterContext.js:67-87 | Installs the REGISTER's answer handlers. Always sends exactly one REGISTER, with the unchanged Call-ID and the next CSeq. |
| RegisterContext.OnRegisterResponse | test/spec/SpecRegisterContext.js:69-72 | A 1xx changes nothing. A 2xx leaves the agent registered with one refresh pending and changes no other field. Any other code is a registration failure with the response and the status code's cause: `failed`, then `unregistered` iff the agent was registered, ending unregistered with no other field changed. |
| RegisterContext.OnRegisterTimeout | test/spec/SpecRegisterContext.js:74-77 | A REGISTER timeout is a registration failure with no response and cause REQUEST_TIMEOUT: `failed`, then `unregistered` iff the agent was registered, ending unregistered with no other field changed. |
| RegisterContext.OnRegisterTransportError | test/spec/SpecRegisterContext.js:79-82 | A REGISTER transport error is a registration failure with no response and cause CONNECTION_ERROR: `failed`, then `unregistered` iff the agent was registered, ending unregistered with no other field changed. |
| RegisterContext.RegistrationFailure | test/spec/SpecRegisterContext.js:90-127 | Emits `failed {response ?? null, cause}` first. The only other event is `unregistered` with the same response and cause, emitted iff the agent was registered. It never leaves the agent registered, sends nothing and changes no other field. |
| RegisterContext.Unregistered | test/spec/SpecRegisterContext.js:264-294 | Leaves the agent unregistered from either prior value. Emits `unregistered {response ?? null, cause ?? null}`. Changes no other field. |
| RegisterContext.UnregisterHeaders | test/spec/SpecRegisterContext.js:209-226 | The headers are exactly `Contact: *` and `Expires: 0` when `all` holds, and exactly `Contact: <contact>;expires=0` otherwise. |
| RegisterContext.Unregister | test/spec/SpecRegisterContext.js:185-261 | When not registered, it sends nothing and changes nothing. When registered, it clears registered and the timer, raises the CSeq by exactly 1, installs the un-REGISTER's answer handlers in place of the REGISTER's, and sends one un-REGISTER with the unchanged Call-ID, the new CSeq and the header list above. |
| RegisterContext.UnregisterIsIdempotent | test/spec/SpecRegisterContext.js:189-200 | A second `unregister` right after a first one sends nothing and changes nothing. |
| RegisterContext.OnTransportClosed | test/spec/SpecRegisterContext.js:130-152 | registered_before becomes the prior registered value. The agent ends up unregistered with no refresh pending and nothing sent. It emits `unregistered {null, null}` iff it was registered. |
| RegisterContext.OnTransportConnected | test/spec/SpecRegisterContext.js:155-166 | Always performs `register()` and sends one REGISTER, whatever registered_before says. |
| RegisterContext.Close | test/spec/SpecRegisterContext.js:168-183 | registered_before becomes the prior registered value, and then `unregister()` runs with no options. An unregistered agent sends nothing and ends with registered equal to registered_before. A registered one sends the single-binding un-REGISTER and ends unregistered. |
| RegisterContext.Apply | test/spec/SpecRegisterContext.js:67-261 | No input changes the Call-ID or the registrar settings. Each input sends at most one request, and the CSeq grows by exactly the number sent, with the sent request carrying the new CSeq. The installed handlers are those of the request just sent, or unchanged when nothing is sent. Only a 2xx answer that arrives while the REGISTER's handlers are installed can make the agent registered or arm the refresh timer. |
| RegisterContext.RunNumbersRequests | test/spec/SpecRegisterContext.js:228-237 | Over any sequence of inputs, the Call-ID and the registrar settings stay fixed. The k-th request sent carries the starting CSeq plus k+1, and the final CSeq is the starting one plus the number of requests sent. |
| RegisterContext.CSeqNeverReused | test/spec/SpecRegisterContext.js:228-237 | Within any run, a later request always carries a larger CSeq than an earlier one. |
| RegisterContext.HandlersFollowLastRequest | test/spec/SpecRegisterContext.js:67-261 | At the end of any run, the installed handlers are those of the last request sent, or the starting ones when nothing was sent. |
| RegisterContext.RegisteredOnlyBySuccess | test/spec/SpecRegisterContext.js:60-88 | An unregistered agent is registered at the end of a run only if some input is a 2xx answer that arrived while the REGISTER's handlers were installed. |
| RegisterContext.RegisteredOnlyByAnsweredRegister | test/spec/SpecRegisterContext.js:60-261 | If the agent starts neither registered nor awaiting a REGISTER's answer, it ends registered only through a 2xx whose last preceding request is a REGISTER. So no un-REGISTER, whether from `unregister` or `close`, was sent between that REGISTER and the 2xx. |
| RegisterContext.AnswerAfterUnregisterKeepsUnregistered | test/spec/SpecRegisterContext.js:228-261 | After a registered agent's un-REGISTER, a next answer of any code leaves it unregistered, with no refresh and only the un-REGISTER sent. |
| RegisterContext.FreshContextRun | test/spec/SpecRegisterContext.js:40-88 | From a new context, any run keeps the given Call-ID, and its k-th request carries CSeq 81+k. The context becomes registered only through a 2xx whose last preceding request is a REGISTER. |

## Findings

| source | as written | input that shows it | evidently intended | confidence | as-written member | corrected member |
|---|---|---|---|---|---|---|
| src/Session/Request.js:50 | The TERMINATED test reads `C.STATUS_TERMINATED`, and nothing in the file binds `C`. | `send('BYE')` while the session is CONFIRMED. The first check passes, then looking up `C` throws a ReferenceError, so nothing is sent. | Compare with `SIP.Session.C.STATUS_TERMINATED`, as lines 39-43 do. | medium, not executed. If a bundle bound some other `C` without `STATUS_TERMINATED`, `send` would instead silently let every method through in TERMINATED. | Request.SendAsWritten | Request.Send |

## Left out

- Logging (`getLogger`, `logger.log`, `logger.warn`): side effects with no behaviour.
- The event-emitter machinery (`initEvents`, `on`, `emit`, `checkEvent`): events are returned as ordered sequences instead.
- Request.Send: the `eventHandlers` option is not modelled. The listeners it installs belong to the event machinery.
- Actual transmission through `dialog.sendRequest`, `request.reply`, the server transactions and the transport. Each is a returned record: the request, the reply arguments, or the owner notification.
- The value `request.reply` returns is a parameter (`replied`) of `ServerContext.Progress`.
- SIP message parsing: the inbound request is given as its method, body and content type.
- `SIP.Utils.sipErrorCause`: the cause of a status-code failure is `StatusCause(code)`, which stands for whatever the library maps that code to. Since the mapping is unknown, the model does not claim that this cause differs from REQUEST_TIMEOUT, CONNECTION_ERROR or DIALOG_ERROR.
- Request.Send: a null method cannot be represented. The `=== undefined` test at src/Session/Request.js:34 lets null through. In TERMINATED it then gets InvalidStateError; in the other admitted statuses a request with a null method would be handed to the dialog.
- StatusCodes.DecimalString: the text matches JavaScript's `String(n)` only for |n| < 10^21; larger values are written in exponent form there (`1e+21`). Neither form has three characters, so the classification is the same.
- Call-ID generation: the Call-ID is a parameter of `RegisterContext.New`.
- RegisterContext.New: the user agent's `registrationContext` back reference holds the context as it was when built. Datatypes are values, so it does not follow later steps; nothing in the model reads it.
- RegisterContext.New: how the contact text is derived from the user agent's contact is not modelled. It is a parameter; the specs only check that it is defined (test/spec/SpecRegisterContext.js:56). The configuration's `instance_id` is not read by the model.
- `getAllowedMethods`, and with it the REGISTER's own header list (binding Contact with expiry, Allow): the specs do not pin it, so `RegisterRequest` records only the Call-ID and CSeq.
- Real timers: the refresh timer is a flag. Timer firing and the refresh/expiry arithmetic (granted expiry, refresh margin) are not modelled.
- Status codes are integers; non-integer values cannot be represented. Undefined, null and non-digit text fail both patterns and would be classified as failures. A digit string such as "180" would be classified like the number it spells.
- ServerContext: how a caller's status code of 0 is treated is not modelled, because the implementation file is not available. Only an absent code takes the default.
- ServerContext: a second reply on the same guard is not guarded in the source either. It is the transaction's business and is not modelled.
- ServerContext.OnRequestTimeout and ServerContext.OnTransportError: the specs show `failed` emitted with positional arguments (0, null, cause) (test/spec/SpecServerContext.js:240, 250). The model uses one payload record with those three values.
- RegisterContext.Apply: what the un-REGISTER's response, timeout and transport-error handlers do is not modelled, because the specs only check that they exist (test/spec/SpecRegisterContext.js:239-261). An answer routed to them, or arriving before any request was sent, changes nothing.
- RegisterContext: a REGISTER answer that arrives after the transport closed still reaches the REGISTER's handlers, since closing the transport installs no handlers. The model does not cancel the transaction.
- RegisterContext: the caller-supplied `extraHeaders` option of `unregister` is not modelled. The specs pin the header list only without it.
- RegisterContext.Unregistered: does not clear the refresh timer. Nothing pins that it should.
- RegisterContext.OnTransportClosed: clearing the timer is the model's choice, since a refresh over a closed transport cannot succeed. The spec at test/spec/SpecRegisterContext.js:137-142 checks the wrong field, so it establishes nothing about the timer.
- RegisterContext.Close: the specs observe `registered == registered_before` with `unregister` stubbed out. The model runs the real `unregister`, so that equality holds after `close` only for an agent that was not registered. A registered agent ends with registered_before true and registered false.
- Request correlator: becoming inert after a terminal event is not modelled, because `Request.js` does not enforce it.

=== FILE: common.dfy ===
/** Values shared by the three signalling state machines: optional and
    failure-carrying results, the cause vocabulary of `failed` events, the
    response seen by a client request, and the method names the core compares
    against. */
module Common {

  /** A JavaScript value that may be absent. Where the source defaults a
      field with `x || default` or `x || null`, `undefined` and `null` behave
      alike and `None` stands for both; where it tests `x === undefined`, as
      `send` does for its method, `None` stands for `undefined` only. */
  datatype Option<+T> = None | Some(value: T) {

    /** The contained value, or `default` when absent. */
    function GetOr(default: T): T {
      match this
      case Some(v) => v
      case None => default
    }
  }

  /** Either the value an operation returns or the exception it throws. */
  datatype Result<+T, +E> = Ok(value: T) | Err(error: E)

  /** SIP method names, as the source's `SIP.C` constants spell them. */
  const INVITE: string := "INVITE"
  const BYE: string := "BYE"

  /** The causes attached to `failed` and `unregistered` events.
      `StatusCause(c)` stands for the cause string the library derives from a
      status code alone (`SIP.Utils.sipErrorCause`); that mapping is not part
      of this model. `Reason(t)` is a caller-supplied cause or reason phrase. */
  datatype Cause =
    | RequestTimeout
    | ConnectionError
    | DialogError
    | StatusCause(statusCode: int)
    | Reason(text: string)

  /** A response received by a client request: its status code and the rest
      of the message, which this core only carries along. */
  datatype Response = Response(statusCode: int, message: string)
}

=== FILE: register_context.dfy ===
/** The registration state machine (`SIP.RegisterContext`): it keeps the
    user agent's binding at the registrar, numbering every REGISTER it sends
    with one Call-ID and an increasing CSeq, and reacts to the transport
    going down and coming back.

    Each operation is a pure step from the context to the new context, the
    events it emits (in order) and the requests it sends (in order). The
    refresh timer is a flag: whether a refresh is pending, not when. Which
    request the registrar's answers belong to is decided by the handlers the
    last `register()` or `unregister()` installed. */
module RegisterContext {
  import opened Common
  import StatusCodes

  /** The CSeq a new context starts from. */
  const INITIAL_CSEQ: nat := 80

  /** The user agent's configuration, as far as registration reads it. */
  datatype Configuration = Configuration(registrarServer: string, registerExpires: int, uri: string)

  /** The user agent: its configuration and its back reference to the
      registration context. */
  datatype UserAgent = UserAgent(configuration: Configuration, registrationContext: Option<Context>)

  /** Whose answer handlers (`receiveResponse`, `onRequestTimeout`,
      `onTransportError`) are installed on the context: none yet, the ones
      `register()` installs, or the ones `unregister()` installs. */
  datatype Handlers = NoHandlers | RegisterHandlers | UnregisterHandlers

  /** The context's fields. `registeredBefore` is `None` until the first
      snapshot (it is undefined in a new context); `registrationTimer` is true
      while a refresh is pending; `handlers` says which request the
      registrar's answers are routed to. */
  datatype Context = Context(
    registrar: string,
    expires: int,
    callId: string,
    cseq: nat,
    toUri: string,
    contact: string,
    registered: bool,
    registeredBefore: Option<bool>,
    registrationTimer: bool,
    handlers: Handlers)

  /** The events the context emits. */
  datatype Event =
    | FailedEvent(response: Option<Response>, cause: Option<Cause>)
    | UnregisteredEvent(response: Option<Response>, cause: Option<Cause>)

  /** A request sent to the registrar: a REGISTER that (re)creates the
      binding, or one that removes bindings with the given extra headers
      (section 10.2.2 of RFC 3261). */
  datatype Outgoing =
    | RegisterRequest(callId: string, cseq: nat)
    | UnregisterRequest(callId: string, cseq: nat, extraHeaders: seq<string>)
  {
    /** The handlers sending this request installs. */
    function Awaiting(): Handlers {
      if RegisterRequest? then RegisterHandlers else UnregisterHandlers
    }
  }

  /** The result of one operation. */
  datatype Step = Step(ctx: Context, events: seq<Event>, sent: seq<Outgoing>)

  /** The fields no operation changes: where and how the agent registers. */
  predicate SameIdentity(a: Context, b: Context) {
    a.registrar == b.registrar && a.expires == b.expires && a.callId == b.callId
    && a.toUri == b.toUri && a.contact == b.contact
  }

  /** `new RegisterContext(ua)`. `callId` is the identifier the library
      generates and `contact` the contact text it derives from the user
      agent; this model takes both as given. The second component is the
      user agent with its back reference set. */
  function New(ua: UserAgent, callId: string, contact: string): (r: (Context, UserAgent))
    ensures r.0.cseq == INITIAL_CSEQ && !r.0.registered && r.0.callId == callId
    ensures r.0.registrar == ua.configuration.registrarServer
    ensures r.0.expires == ua.configuration.registerExpires
    ensures r.0.toUri == ua.configuration.uri
    ensures r.0.contact == contact
    ensures r.0.registeredBefore.None? && !r.0.registrationTimer && r.0.handlers == NoHandlers
    ensures r.1 == ua.(registrationContext := Some(r.0))
  {
    var c := Context(ua.configuration.registrarServer, ua.configuration.registerExpires, callId, INITIAL_CSEQ,
                     ua.configuration.uri, contact, false, None, false, NoHandlers);
    (c, ua.(registrationContext := Some(c)))
  }

  /** `register()`: install the REGISTER handlers and send one REGISTER with
      the next CSeq. The outcome arrives later through `OnRegisterResponse`,
      `OnRegisterTimeout` or `OnRegisterTransportError`. */
  function Register(ctx: Context): (r: Step)
    ensures r.ctx == ctx.(cseq := ctx.cseq + 1, handlers := RegisterHandlers)
    ensures r.events == [] && r.sent == [RegisterRequest(ctx.callId, ctx.cseq + 1)]
  {
    var next := ctx.cseq + 1;
    Step(ctx.(cseq := next, handlers := RegisterHandlers), [], [RegisterRequest(ctx.callId, next)])
  }

  /** `unregistered(response, cause)`: the agent is no longer registered,
      whatever it was before, and says so with the given (possibly null)
      response and cause. */
  function Unregistered(ctx: Context, response: Option<Response>, cause: Option<Cause>): (r: Step)
    ensures !r.ctx.registered
    ensures r.ctx.(registered := ctx.registered) == ctx
    ensures r.events == [UnregisteredEvent(response, cause)] && r.sent == []
  {
    Step(ctx.(registered := false), [UnregisteredEvent(response, cause)], [])
  }

  /** `registrationFailure(response, cause)`: `failed` always; when the agent
      was registered, also the `unregistered` transition with the same
      response and cause, so no failed refresh leaves it registered. */
  function RegistrationFailure(ctx: Context, response: Option<Response>, cause: Option<Cause>): (r: Step)
    ensures !r.ctx.registered && r.sent == []
    ensures r.ctx.(registered := ctx.registered) == ctx
    ensures |r.events| >= 1 && r.events[0] == FailedEvent(response, cause)
    ensures r.events == [FailedEvent(response, cause)] + (if ctx.registered then [UnregisteredEvent(response, cause)] else [])
  {
    if ctx.registered then
      var u := Unregistered(ctx, response, cause);
      Step(u.ctx, [FailedEvent(response, cause)] + u.events, [])
    else
      Step(ctx, [FailedEvent(response, cause)], [])
  }

  /** The handler `register()` installs for the registrar's answer: 1xx
      changes nothing, 2xx marks the agent registered with one pending
      refresh (replacing any earlier one), anything else is a registration
      failure with the status code's cause. The class test is the request
      correlator's. */
  function OnRegisterResponse(ctx: Context, response: Response): (r: Step)
    ensures r.sent == []
    ensures 100 <= response.statusCode <= 199 ==> r == Step(ctx, [], [])
    ensures 200 <= response.statusCode <= 299 ==> r.ctx.registered && r.ctx.registrationTimer && r.events == []
    ensures 200 <= response.statusCode <= 299 ==> r.ctx == ctx.(registered := true, registrationTimer := true)
    ensures !(100 <= response.statusCode <= 299) ==>
      !r.ctx.registered && |r.events| >= 1 && r.events[0] == FailedEvent(Some(response), Some(StatusCause(response.statusCode)))
    ensures !(100 <= response.statusCode <= 299) ==> r.ctx.(registered := ctx.registered) == ctx
    ensures !(100 <= response.statusCode <= 299) ==>
      var failure := (Some(response), Some(StatusCause(response.statusCode)));
      r.events == [FailedEvent(failure.0, failure.1)] + (if ctx.registered then [UnregisteredEvent(failure.0, failure.1)] else [])
  {
    match StatusCodes.PatternClass(response.statusCode)
    case Provisional => Step(ctx, [], [])
    case Success => Step(ctx.(registered := true, registrationTimer := true), [], [])
    case Failure => RegistrationFailure(ctx, Some(response), Some(StatusCause(response.statusCode)))
  }

  /** The timeout handler `register()` installs. */
  function OnRegisterTimeout(ctx: Context): (r: Step)
    ensures !r.ctx.registered && r.sent == []
    ensures |r.events| >= 1 && r.events[0] == FailedEvent(None, Some(RequestTimeout))
    ensures r.ctx.(registered := ctx.registered) == ctx
    ensures r.events == [FailedEvent(None, Some(RequestTimeout))] + (if ctx.registered then [UnregisteredEvent(None, Some(RequestTimeout))] else [])
  {
    RegistrationFailure(ctx, None, Some(RequestTimeout))
  }

  /** The transport-error handler `register()` installs. */
  function OnRegisterTransportError(ctx: Context): (r: Step)
    ensures !r.ctx.registered && r.sent == []
    ensures |r.events| >= 1 && r.events[0] == FailedEvent(None, Some(ConnectionError))
    ensures r.ctx.(registered := ctx.registered) == ctx
    ensures r.events == [FailedEvent(None, Some(ConnectionError))] + (if ctx.registered then [UnregisteredEvent(None, Some(ConnectionError))] else [])
  {
    RegistrationFailure(ctx, None, Some(ConnectionError))
  }

  /** The extra headers of an un-REGISTER: remove every binding of the
      address-of-record, or only this agent's contact. */
  function UnregisterHeaders(all: bool, contact: string): (h: seq<string>)
    ensures all ==> h == ["Contact: *", "Expires: 0"]
    ensures !all ==> h == ["Contact: " + contact + ";expires=0"]
  {
    if all then ["Contact: *", "Expires: 0"] else ["Contact: " + contact + ";expires=0"]
  }

  /** `unregister({all})`: silent when not registered; otherwise the agent
      stops being registered at once, the refresh is cancelled, the
      un-REGISTER's handlers replace the REGISTER's, and one un-REGISTER goes
      out with the same Call-ID and the next CSeq. */
  function Unregister(ctx: Context, all: bool): (r: Step)
    ensures !ctx.registered ==> r == Step(ctx, [], [])
    ensures ctx.registered ==> !r.ctx.registered && !r.ctx.registrationTimer && r.ctx.cseq == ctx.cseq + 1
    ensures ctx.registered ==> r.ctx.handlers == UnregisterHandlers
    ensures ctx.registered ==>
      r.ctx == ctx.(registered := false, registrationTimer := false, cseq := ctx.cseq + 1, handlers := UnregisterHandlers)
    ensures ctx.registered ==> r.events == [] && |r.sent| == 1
    ensures ctx.registered ==> r.sent[0] == UnregisterRequest(ctx.callId, r.ctx.cseq, UnregisterHeaders(all, ctx.contact))
  {
    if !ctx.registered then
      Step(ctx, [], [])
    else
      var next := ctx.cseq + 1;
      Step(ctx.(registered := false, registrationTimer := false, cseq := next, handlers := UnregisterHandlers), [],
           [UnregisterRequest(ctx.callId, next, UnregisterHeaders(all, ctx.contact))])
  }

  /** `onTransportClosed()`: remember whether the agent was registered,
      cancel the pending refresh, and, when it was registered, run
      `unregistered()` with no response and no cause. */
  function OnTransportClosed(ctx: Context): (r: Step)
    ensures r.ctx.registeredBefore == Some(ctx.registered)
    ensures !r.ctx.registered && !r.ctx.registrationTimer && r.sent == []
    ensures r.ctx.cseq == ctx.cseq && r.ctx.handlers == ctx.handlers && SameIdentity(ctx, r.ctx)
    ensures ctx.registered ==> r.events == [UnregisteredEvent(None, None)]
    ensures !ctx.registered ==> r.events == []
  {
    var snapshot := ctx.(registeredBefore := Some(ctx.registered), registrationTimer := false);
    if ctx.registered then Unregistered(snapshot, None, None) else Step(snapshot, [], [])
  }

  /** `onTransportConnected()`: always `register()`, whatever the snapshot says. */
  function OnTransportConnected(ctx: Context): (r: Step)
    ensures r == Register(ctx)
    ensures r.sent == [RegisterRequest(ctx.callId, ctx.cseq + 1)]
  {
    Register(ctx)
  }

  /** `close()`: remember whether the agent is registered, then `unregister()`
      with no options (only this agent's binding). Right after the snapshot,
      `registered` and `registeredBefore` agree. */
  function Close(ctx: Context): (r: Step)
    ensures r.ctx.registeredBefore == Some(ctx.registered)
    ensures r == Unregister(ctx.(registeredBefore := Some(ctx.registered)), false)
    ensures !ctx.registered ==> r.sent == [] && r.ctx.registeredBefore == Some(r.ctx.registered)
    ensures ctx.registered ==> !r.ctx.registered
    ensures ctx.registered ==> r.sent == [UnregisterRequest(ctx.callId, ctx.cseq + 1, ["Contact: " + ctx.contact + ";expires=0"])]
  {
    var snapshot := ctx.(registeredBefore := Some(ctx.registered));
    Unregister(snapshot, false)
  }

  /** Unregistering twice sends one request at most: the second call finds
      the agent unregistered and does nothing. */
  lemma UnregisterIsIdempotent(ctx: Context, first: bool, second: bool)
    ensures var s1 := Unregister(ctx, first);
      Unregister(s1.ctx, second) == Step(s1.ctx, [], [])
  {
  }

  /** Every input the context reacts to. The registrar's answer, the
      transaction timeout and the transport error go to whichever handlers
      are installed. */
  datatype Input =
    | RegisterCall
    | AnswerReceived(answer: Response)
    | AnswerTimeout
    | AnswerTransportError
    | UnregisterCall(all: bool)
    | UnregisteredCall(response: Option<Response>, cause: Option<Cause>)
    | RegistrationFailureCall(response: Option<Response>, cause: Option<Cause>)
    | TransportClosed
    | TransportConnected
    | CloseCall

  /** The step one input causes. An answer reaches the REGISTER handlers
      only while they are installed; the un-REGISTER's handlers are not
      modelled, so an answer routed to them, or arriving before any request,
      changes nothing. */
  function Apply(ctx: Context, input: Input): (r: Step)
    ensures SameIdentity(ctx, r.ctx)
    ensures |r.sent| <= 1 && r.ctx.cseq == ctx.cseq + |r.sent|
    ensures forall k :: 0 <= k < |r.sent| ==> r.sent[k].cseq == ctx.cseq + k + 1 && r.sent[k].callId == ctx.callId
    ensures r.ctx.handlers == if r.sent == [] then ctx.handlers else r.sent[0].Awaiting()
    ensures r.ctx.registered && !ctx.registered ==>
      input.AnswerReceived? && 200 <= input.answer.statusCode <= 299 && ctx.handlers == RegisterHandlers
    ensures r.ctx.registrationTimer && !ctx.registrationTimer ==>
      input.AnswerReceived? && 200 <= input.answer.statusCode <= 299 && ctx.handlers == RegisterHandlers
  {
    match input
    case RegisterCall => Register(ctx)
    case AnswerReceived(answer) =>
      if ctx.handlers == RegisterHandlers then OnRegisterResponse(ctx, answer) else Step(ctx, [], [])
    case AnswerTimeout =>
      if ctx.handlers == RegisterHandlers then OnRegisterTimeout(ctx) else Step(ctx, [], [])
    case AnswerTransportError =>
      if ctx.handlers == RegisterHandlers then OnRegisterTransportError(ctx) else Step(ctx, [], [])
    case UnregisterCall(all) => Unregister(ctx, all)
    case UnregisteredCall(response, cause) => Unregistered(ctx, response, cause)
    case RegistrationFailureCall(response, cause) => RegistrationFailure(ctx, response, cause)
    case TransportClosed => OnTransportClosed(ctx)
    case TransportConnected => OnTransportConnected(ctx)
    case CloseCall => Close(ctx)
  }

  /** The steps of a sequence of inputs, one after another, with their
      events and requests concatenated in order. */
  function Run(ctx: Context, inputs: seq<Input>): Step
    decreases |inputs|
  {
    if inputs == [] then Step(ctx, [], [])
    else
      var first := Apply(ctx, inputs[0]);
      var rest := Run(first.ctx, inputs[1..]);
      Step(rest.ctx, first.events + rest.events, first.sent + rest.sent)
  }

  /** The requests `sent` carry the Call-ID `callId` and the consecutive
      CSeqs after `base`. */
  predicate NumberedAfter(base: nat, callId: string, sent: seq<Outgoing>) {
    forall k :: 0 <= k < |sent| ==> sent[k].cseq == base + k + 1 && sent[k].callId == callId
  }

  /** Numbered requests followed by requests numbered on from where they
      stop are numbered as one sequence. */
  lemma NumberedAppend(base: nat, callId: string, a: seq<Outgoing>, b: seq<Outgoing>)
    requires NumberedAfter(base, callId, a) && NumberedAfter(base + |a|, callId, b)
    ensures NumberedAfter(base, callId, a + b)
  {
    forall k | 0 <= k < |a + b|
      ensures (a + b)[k].cseq == base + k + 1 && (a + b)[k].callId == callId
    {
      if k >= |a| {
        assert (a + b)[k] == b[k - |a|];
      }
    }
  }

  /** Over any run the Call-ID and the registrar settings never change, the
      CSeq advances by exactly one per request sent, and the requests carry
      consecutive CSeqs after the starting one. */
  lemma {:induction false} RunNumbersRequests(ctx: Context, inputs: seq<Input>)
    ensures var r := Run(ctx, inputs);
      SameIdentity(ctx, r.ctx) && r.ctx.cseq == ctx.cseq + |r.sent|
      && forall k :: 0 <= k < |r.sent| ==> r.sent[k].cseq == ctx.cseq + k + 1 && r.sent[k].callId == ctx.callId
    decreases |inputs|
  {
    if inputs != [] {
      var first := Apply(ctx, inputs[0]);
      assert NumberedAfter(ctx.cseq, ctx.callId, first.sent);
      RunNumbersRequests(first.ctx, inputs[1..]);
      var rest := Run(first.ctx, inputs[1..]);
      assert NumberedAfter(first.ctx.cseq, first.ctx.callId, rest.sent);
      NumberedAppend(ctx.cseq, ctx.callId, first.sent, rest.sent);
    }
  }

  /** No CSeq is used twice in a run: later requests carry larger CSeqs. */
  lemma CSeqNeverReused(ctx: Context, inputs: seq<Input>, i: nat, j: nat)
    requires i < j < |Run(ctx, inputs).sent|
    ensures Run(ctx, inputs).sent[i].cseq < Run(ctx, inputs).sent[j].cseq
  {
    RunNumbersRequests(ctx, inputs);
  }

  /** The handlers a sequence of requests leaves installed: those of its
      last request, or `start` when it is empty. */
  function LastHandlers(start: Handlers, sent: seq<Outgoing>): Handlers {
    if sent == [] then start else sent[|sent| - 1].Awaiting()
  }

  /** Sending `a` and then `b` leaves the handlers `b` leaves after `a`'s. */
  lemma LastHandlersAppend(start: Handlers, a: seq<Outgoing>, b: seq<Outgoing>)
    ensures LastHandlers(start, a + b) == LastHandlers(LastHandlers(start, a), b)
  {
    if b != [] {
      assert (a + b)[|a + b| - 1] == b[|b| - 1];
    } else {
      assert a + b == a;
    }
  }

  /** The handlers installed at the end of a run are those of the last
      request the run sent, or the starting ones when it sent none. */
  lemma {:induction false} HandlersFollowLastRequest(ctx: Context, inputs: seq<Input>)
    ensures var r := Run(ctx, inputs);
      r.ctx.handlers == LastHandlers(ctx.handlers, r.sent)
    decreases |inputs|
  {
    if inputs != [] {
      var first := Apply(ctx, inputs[0]);
      assert first.ctx.handlers == LastHandlers(ctx.handlers, first.sent);
      HandlersFollowLastRequest(first.ctx, inputs[1..]);
      LastHandlersAppend(ctx.handlers, first.sent, Run(first.ctx, inputs[1..]).sent);
    }
  }

  /** An unregistered agent ends a run registered only if some input of the
      run is a 2xx answer that arrived while the REGISTER handlers were
      installed. */
  lemma {:induction false} RegisteredOnlyBySuccess(ctx: Context, inputs: seq<Input>)
    requires !ctx.registered && Run(ctx, inputs).ctx.registered
    ensures exists k :: 0 <= k < |inputs| && inputs[k].AnswerReceived? && 200 <= inputs[k].answer.statusCode <= 299
                        && Run(ctx, inputs[..k]).ctx.handlers == RegisterHandlers
    decreases |inputs|
  {
    var first := Apply(ctx, inputs[0]);
    if first.ctx.registered {
      assert inputs[..0] == [];
      assert inputs[0].AnswerReceived? && Run(ctx, inputs[..0]).ctx.handlers == RegisterHandlers;
    } else {
      RegisteredOnlyBySuccess(first.ctx, inputs[1..]);
      var k :| 0 <= k < |inputs[1..]| && inputs[1..][k].AnswerReceived? && 200 <= inputs[1..][k].answer.statusCode <= 299
               && Run(first.ctx, inputs[1..][..k]).ctx.handlers == RegisterHandlers;
      assert inputs[k + 1] == inputs[1..][k];
      assert inputs[..k + 1][0] == inputs[0] && inputs[..k + 1][1..] == inputs[1..][..k];
      assert Run(ctx, inputs[..k + 1]).ctx == Run(first.ctx, inputs[1..][..k]).ctx;
    }
  }

  /** Some input of the run is a 2xx answer whose last preceding request is
      a REGISTER: the answer that registered the agent belongs to a REGISTER,
      with no un-REGISTER sent in between. */
  predicate RegisteredByAnsweredRegister(ctx: Context, inputs: seq<Input>) {
    exists k :: 0 <= k < |inputs| && inputs[k].AnswerReceived? && 200 <= inputs[k].answer.statusCode <= 299
                && var before := Run(ctx, inputs[..k]).sent;
                   before != [] && before[|before| - 1].RegisterRequest?
  }

  /** An agent that is neither registered nor waiting for a REGISTER's answer
      ends a run registered only through a 2xx that answers a REGISTER: the
      last request the run sent before that answer is a REGISTER, so no
      un-REGISTER (from `unregister()` or `close()`) came in between. */
  lemma RegisteredOnlyByAnsweredRegister(ctx: Context, inputs: seq<Input>)
    requires !ctx.registered && ctx.handlers != RegisterHandlers && Run(ctx, inputs).ctx.registered
    ensures RegisteredByAnsweredRegister(ctx, inputs)
  {
    RegisteredOnlyBySuccess(ctx, inputs);
    var k :| 0 <= k < |inputs| && inputs[k].AnswerReceived? && 200 <= inputs[k].answer.statusCode <= 299
             && Run(ctx, inputs[..k]).ctx.handlers == RegisterHandlers;
    HandlersFollowLastRequest(ctx, inputs[..k]);
    var before := Run(ctx, inputs[..k]).sent;
    assert LastHandlers(ctx.handlers, before) == RegisterHandlers;
    assert before != [] && before[|before| - 1].RegisterRequest?;
  }

  /** Once a registered agent has sent its un-REGISTER, a 2xx arriving next
      is the un-REGISTER's answer and does not register it again. */
  lemma AnswerAfterUnregisterKeepsUnregistered(ctx: Context, all: bool, answer: Response)
    requires ctx.registered
    ensures var r := Run(ctx, [UnregisterCall(all), AnswerReceived(answer)]);
      !r.ctx.registered && !r.ctx.registrationTimer && |r.sent| == 1 && r.sent[0].UnregisterRequest?
  {
    var inputs := [UnregisterCall(all), AnswerReceived(answer)];
    var first := Unregister(ctx, all);
    assert first.ctx.handlers == UnregisterHandlers;
    assert inputs[1..] == [AnswerReceived(answer)];
    assert Run(first.ctx, inputs[1..]) == Step(first.ctx, [], []) by {
      assert [AnswerReceived(answer)][1..] == [];
    }
  }

  /** A fresh context numbers its k-th request 81 + k under the Call-ID it
      was created with, and it becomes registered only through a 2xx that
      answers a REGISTER it sent. */
  lemma FreshContextRun(ua: UserAgent, callId: string, contact: string, inputs: seq<Input>)
    ensures var r := Run(New(ua, callId, contact).0, inputs);
      r.ctx.callId == callId && r.ctx.cseq == INITIAL_CSEQ + |r.sent|
      && forall k :: 0 <= k < |r.sent| ==> r.sent[k].cseq == INITIAL_CSEQ + k + 1 && r.sent[k].callId == callId
    ensures var c := New(ua, callId, contact).0;
      Run(c, inputs).ctx.registered ==> RegisteredByAnsweredRegister(c, inputs)
  {
    var c := New(ua, callId, contact).0;
    RunNumbersRequests(c, inputs);
    if Run(c, inputs).ctx.registered {
      RegisteredOnlyByAnsweredRegister(c, inputs);
    }
  }
}

=== FILE: request.dfy ===
/** The outbound request correlator (`SIP.Session.Request` in
    src/Session/Request.js): it checks a request against the owning
    session's status, hands it to the session's dialog, and turns the
    transaction's callbacks into `progress`, `succeeded` and `failed` events.

    Events and owner notifications are returned as a sequence of effects in
    the order the source performs them, instead of being emitted. */
module Request {
  import opened Common
  import opened StatusCodes

  /** The owning session's status. The five named statuses are the ones
      `send` admits; `OtherStatus` stands for every other status a session
      can be in (null, INVITE sent, INVITE received, answered, canceled, ...). */
  datatype SessionStatus =
    | Status1xxReceived
    | WaitingForAnswer
    | WaitingForAck
    | Confirmed
    | Terminated
    | OtherStatus(name: string)

  /** The owning session, as far as the correlator reads it. */
  datatype Session = Session(status: SessionStatus)

  /** The `options` argument of `send`; `eventHandlers` is not modelled. */
  datatype SendOptions = SendOptions(extraHeaders: Option<seq<string>>, body: Option<string>)

  /** The one request handed to `dialog.sendRequest`. */
  datatype DialogRequest = DialogRequest(sipMethod: string, extraHeaders: seq<string>, body: Option<string>)

  /** The exceptions `send` throws. `ReferenceError` is what evaluating an
      unbound identifier throws in JavaScript. */
  datatype RequestError =
    | TypeError(message: string)
    | InvalidStateError(status: SessionStatus)
    | ReferenceError(identifier: string)

  datatype Originator = Remote | System

  /** The events the correlator emits. `response` is `None` when the payload
      has no response (the system-originated failures). */
  datatype Event =
    | Progress(originator: Originator, response: Option<Response>)
    | Succeeded(originator: Originator, response: Option<Response>)
    | Failed(originator: Originator, response: Option<Response>, cause: Cause)

  /** What a callback does, in order: emit an event or notify the owning session. */
  datatype Effect =
    | Emit(event: Event)
    | OwnerRequestTimeout
    | OwnerTransportError
    | OwnerDialogError(response: Response)

  /** The statuses in which the owning session may send a request at all. */
  predicate AdmitsRequests(status: SessionStatus) {
    status == Status1xxReceived || status == WaitingForAnswer || status == WaitingForAck
    || status == Confirmed || status == Terminated
  }

  /** Whether `send` lets `method` through in `status`: an admitted status,
      and only BYE once the session is terminated (section 15 of RFC 3261). */
  predicate MaySend(status: SessionStatus, sipMethod: string) {
    AdmitsRequests(status) && (status == Terminated ==> sipMethod == BYE)
  }

  /** `options.extraHeaders || []`: an array is always truthy, so a given
      list, even an empty one, is used as it is. */
  function HeadersOf(options: Option<SendOptions>): (h: seq<string>)
    ensures options.Some? && options.value.extraHeaders.Some? ==> h == options.value.extraHeaders.value
    ensures options.None? || options.value.extraHeaders.None? ==> h == []
  {
    if options.Some? then options.value.extraHeaders.GetOr([]) else []
  }

  /** `options.body || null`: the empty string is falsy, so it becomes null. */
  function BodyOf(options: Option<SendOptions>): (b: Option<string>)
    ensures b.Some? <==> options.Some? && options.value.body.Some? && options.value.body.value != ""
    ensures b.Some? ==> b == options.value.body && b.value != ""
  {
    if options.Some? && options.value.body.Some? && options.value.body.value != ""
    then options.value.body
    else None
  }

  /** `send(method, options)`, with the terminated-status test comparing
      against the session's TERMINATED status. `None` for `method` is an
      omitted (undefined) argument; a null method cannot be expressed. */
  function Send(owner: Session, sipMethod: Option<string>, options: Option<SendOptions>): (r: Result<DialogRequest, RequestError>)
    ensures sipMethod.None? <==> r == Err(TypeError("Not enough arguments"))
    ensures r.Err? && r.error.InvalidStateError? <==> sipMethod.Some? && !MaySend(owner.status, sipMethod.value)
    ensures r.Err? && r.error.InvalidStateError? ==> r.error.status == owner.status
    ensures r.Ok? <==> sipMethod.Some? && MaySend(owner.status, sipMethod.value)
    ensures r.Ok? ==> r.value == DialogRequest(sipMethod.value, HeadersOf(options), BodyOf(options))
  {
    if sipMethod.None? then
      Err(TypeError("Not enough arguments"))
    else if !AdmitsRequests(owner.status) then
      Err(InvalidStateError(owner.status))
    else if owner.status == Terminated && sipMethod.value != BYE then
      Err(InvalidStateError(owner.status))
    else
      Ok(DialogRequest(sipMethod.value, HeadersOf(options), BodyOf(options)))
  }

  /** `send` as the file is written: the terminated-status test reads
      `C.STATUS_TERMINATED`, and no `C` is bound in that file, so for every
      admitted status the lookup of `C` throws before anything is sent. */
  function SendAsWritten(owner: Session, sipMethod: Option<string>, options: Option<SendOptions>): (r: Result<DialogRequest, RequestError>)
    ensures r.Err?
    ensures sipMethod.Some? && AdmitsRequests(owner.status) ==> r == Err(ReferenceError("C"))
  {
    if sipMethod.None? then
      Err(TypeError("Not enough arguments"))
    else if !AdmitsRequests(owner.status) then
      Err(InvalidStateError(owner.status))
    else
      Err(ReferenceError("C"))
  }

  /** The two readings agree on every call the first two checks refuse; on
      every call the corrected `send` accepts, the file as written throws. */
  lemma SendAsWrittenRefusesEverySend(owner: Session, sipMethod: Option<string>, options: Option<SendOptions>)
    ensures sipMethod.None? || !AdmitsRequests(owner.status) ==> SendAsWritten(owner, sipMethod, options) == Send(owner, sipMethod, options)
    ensures Send(owner, sipMethod, options).Ok? ==> SendAsWritten(owner, sipMethod, options) == Err(ReferenceError("C"))
  {
  }

  /** A concrete witness: a BYE in a confirmed session is sent by the
      corrected model but throws in the file as written. */
  lemma ConfirmedByeWitness()
    ensures Send(Session(Confirmed), Some(BYE), None) == Ok(DialogRequest(BYE, [], None))
    ensures SendAsWritten(Session(Confirmed), Some(BYE), None) == Err(ReferenceError("C"))
  {
  }

  /** `receiveResponse(response)`: exactly one event, from the remote side,
      chosen by the class of the status code. */
  function ReceiveResponse(response: Response): (r: seq<Effect>)
    ensures |r| == 1 && r[0].Emit?
    ensures r[0].event.originator == Remote && r[0].event.response == Some(response)
    ensures r[0].event.Progress? <==> 100 <= response.statusCode <= 199
    ensures r[0].event.Succeeded? <==> 200 <= response.statusCode <= 299
    ensures r[0].event.Failed? <==> !(100 <= response.statusCode <= 299)
    ensures r[0].event.Failed? ==> r[0].event.cause == StatusCause(response.statusCode)
  {
    match PatternClass(response.statusCode)
    case Provisional => [Emit(Progress(Remote, Some(response)))]
    case Success => [Emit(Succeeded(Remote, Some(response)))]
    case Failure => [Emit(Failed(Remote, Some(response), StatusCause(response.statusCode)))]
  }

  /** The cause of a failure reported by `receiveResponse` depends on the
      status code alone: two responses with the same code fail alike. */
  lemma FailureCauseDependsOnlyOnCode(a: Response, b: Response)
    requires a.statusCode == b.statusCode
    requires ReceiveResponse(a)[0].event.Failed?
    ensures ReceiveResponse(b)[0].event.Failed?
    ensures ReceiveResponse(a)[0].event.cause == ReceiveResponse(b)[0].event.cause
  {
  }

  /** `onRequestTimeout()`: a system `failed` event, then the owner is told. */
  function OnRequestTimeout(): (r: seq<Effect>)
    ensures |r| == 2 && r[1] == OwnerRequestTimeout
    ensures r[0] == Emit(Failed(System, None, RequestTimeout))
  {
    [Emit(Failed(System, None, RequestTimeout)), OwnerRequestTimeout]
  }

  /** `onTransportError()`: a system `failed` event, then the owner is told. */
  function OnTransportError(): (r: seq<Effect>)
    ensures |r| == 2 && r[1] == OwnerTransportError
    ensures r[0] == Emit(Failed(System, None, ConnectionError))
  {
    [Emit(Failed(System, None, ConnectionError)), OwnerTransportError]
  }

  /** `onDialogError(response)`: a remote `failed` event carrying the
      response, then the same response is forwarded to the owner. */
  function OnDialogError(response: Response): (r: seq<Effect>)
    ensures |r| == 2 && r[1] == OwnerDialogError(response)
    ensures r[0] == Emit(Failed(Remote, Some(response), DialogError))
  {
    [Emit(Failed(Remote, Some(response), DialogError)), OwnerDialogError(response)]
  }

  /** The three callbacks report three different causes, and only the
      timeout and the transport error are system-originated. */
  lemma FailureSourcesAreDistinct(dialogResponse: Response)
    ensures OnRequestTimeout()[0].event.cause != OnTransportError()[0].event.cause
    ensures OnDialogError(dialogResponse)[0].event.cause !in {RequestTimeout, ConnectionError}
    ensures OnRequestTimeout()[0].event.originator == System && OnTransportError()[0].event.originator == System
    ensures OnDialogError(dialogResponse)[0].event.originator == Remote
  {
  }
}

=== FILE: server_context.dfy ===
/** The server reply guard (`SIP.ServerContext`): it wraps one inbound
    request, picks the server transaction type from the request method, and
    lets the application answer with `progress`, `accept`, `reject` or the
    unchecked `reply`. The first three check the status code against the
    class the operation stands for (1xx, 2xx, 3xx-6xx) before replying. */
module ServerContext {
  import opened Common
  import StatusCodes
  import Request

  /** The user agent that received the request; only its identity matters here. */
  datatype UserAgent = UserAgent(uri: string)

  /** The inbound request, as produced by the parser: method, body, content type. */
  datatype IncomingRequest = IncomingRequest(sipMethod: string, body: Option<string>, contentType: Option<string>)

  /** The server transaction built for the request. */
  datatype Transaction =
    | InviteServerTransaction(request: IncomingRequest, ua: UserAgent)
    | NonInviteServerTransaction(request: IncomingRequest, ua: UserAgent)

  /** The guard's fields. `data` is the application's payload container. */
  datatype Context = Context(
    ua: UserAgent,
    request: IncomingRequest,
    sipMethod: string,
    transaction: Transaction,
    body: Option<string>,
    contentType: Option<string>,
    data: map<string, string>)

  /** Both the `options` object the application passes and the four
      arguments `request.reply(statusCode, reasonPhrase, extraHeaders, body)`
      receives; `None` is an undefined field. */
  datatype ReplyArgs = ReplyArgs(
    statusCode: Option<int>,
    reasonPhrase: Option<string>,
    extraHeaders: Option<seq<string>>,
    body: Option<string>)

  /** The payload shared by `rejected` and `failed`. */
  datatype FailurePayload = FailurePayload(code: int, response: Option<string>, cause: Option<Cause>)

  /** The events the guard emits. `ProgressEvent` carries what `request.reply` returned. */
  datatype Event =
    | ProgressEvent(code: int, response: Option<string>)
    | AcceptedEvent(code: int, response: Option<string>)
    | RejectedEvent(payload: FailurePayload)
    | FailedEvent(payload: FailurePayload)

  /** A successful call: the guard it returns, the reply it sent, the events it emitted. */
  datatype Outcome = Outcome(ctx: Context, reply: ReplyArgs, events: seq<Event>)

  /** The `TypeError` thrown for a status code outside the operation's class. */
  datatype ReplyError = InvalidStatusCode(code: int) {
    /** `'Invalid statusCode: ' + code`: the prefix, then the code in decimal. */
    function Message(): (m: string)
      ensures code >= 0 ==> m == "Invalid statusCode: " + StatusCodes.Digits(code)
      ensures code < 0 ==> m == "Invalid statusCode: -" + StatusCodes.Digits(-code)
    {
      "Invalid statusCode: " + StatusCodes.DecimalString(code)
    }
  }

  /** The message for a three-digit code ends in exactly its three decimal
      digits, most significant first. */
  lemma MessageOfThreeDigitCode(code: int)
    requires 100 <= code <= 999
    ensures InvalidStatusCode(code).Message()
      == "Invalid statusCode: " + [StatusCodes.DigitChar(code / 100), StatusCodes.DigitChar(code / 10 % 10),
                                   StatusCodes.DigitChar(code % 10)]
  {
    StatusCodes.ThreeDigits(code);
  }

  /** The message for a code below 100, as the specs try for 1..99: the
      prefix, then one or two digits. */
  lemma MessageOfShortCode(code: int)
    requires 0 <= code < 100
    ensures InvalidStatusCode(code).Message()
      == "Invalid statusCode: " + (if code < 10 then [StatusCodes.DigitChar(code)]
                                   else [StatusCodes.DigitChar(code / 10), StatusCodes.DigitChar(code % 10)])
  {
    StatusCodes.ShortDigits(code);
  }

  /** `new ServerContext(ua, request)`. */
  function New(ua: UserAgent, request: IncomingRequest): (c: Context)
    ensures c.ua == ua && c.request == request && c.sipMethod == request.sipMethod
    ensures c.transaction.InviteServerTransaction? <==> request.sipMethod == INVITE
    ensures c.transaction.NonInviteServerTransaction? <==> request.sipMethod != INVITE
    ensures c.transaction.request == request && c.transaction.ua == ua
    ensures c.body == request.body && c.contentType == request.contentType
    ensures c.data == map[]
  {
    var transaction :=
      if request.sipMethod == INVITE then InviteServerTransaction(request, ua)
      else NonInviteServerTransaction(request, ua);
    Context(ua, request, request.sipMethod, transaction, request.body, request.contentType, map[])
  }

  /** The status code an operation uses: the caller's, or the operation's default
      when `options` or its `statusCode` is absent. */
  function CodeOf(options: Option<ReplyArgs>, default: int): (code: int)
    ensures options.Some? && options.value.statusCode.Some? ==> code == options.value.statusCode.value
    ensures options.None? || options.value.statusCode.None? ==> code == default
  {
    if options.Some? && options.value.statusCode.Some? then options.value.statusCode.value else default
  }

  /** The arguments a checked operation passes to `request.reply`: the
      effective code, the caller's reason phrase and body, and the caller's
      extra headers or an empty list. */
  function CheckedArgs(options: Option<ReplyArgs>, default: int): (a: ReplyArgs)
    ensures a.statusCode == Some(CodeOf(options, default))
    ensures a.extraHeaders.Some?
    ensures options.None? ==> a == ReplyArgs(Some(default), None, Some([]), None)
    ensures options.Some? && options.value.statusCode.Some? && options.value.extraHeaders.Some? ==> a == options.value
    ensures options.Some? ==> a == ReplyArgs(Some(CodeOf(options, default)), options.value.reasonPhrase,
                                             Some(options.value.extraHeaders.GetOr([])), options.value.body)
  {
    match options
    case None => ReplyArgs(Some(default), None, Some([]), None)
    case Some(o) => ReplyArgs(Some(CodeOf(options, default)), o.reasonPhrase, Some(o.extraHeaders.GetOr([])), o.body)
  }

  /** `progress(options)`: default 180, codes 100..199 only; emits `progress`
      with the value `request.reply` returned (`replied`). */
  function Progress(ctx: Context, options: Option<ReplyArgs>, replied: string): (r: Result<Outcome, ReplyError>)
    ensures r.Err? <==> !(100 <= CodeOf(options, 180) <= 199)
    ensures r.Err? ==> r.error == InvalidStatusCode(CodeOf(options, 180))
    ensures options.None? ==> r.Ok? && r.value.reply.statusCode == Some(180)
    ensures r.Ok? ==> r.value.ctx == ctx && r.value.reply == CheckedArgs(options, 180)
    ensures r.Ok? ==> r.value.events == [ProgressEvent(CodeOf(options, 180), Some(replied))]
  {
    var args := CheckedArgs(options, 180);
    var code := CodeOf(options, 180);
    if 100 <= code <= 199 then Ok(Outcome(ctx, args, [ProgressEvent(code, Some(replied))]))
    else Err(InvalidStatusCode(code))
  }

  /** `accept(options)`: default 200, codes 200..299 only; emits `accepted`
      with a null response. */
  function Accept(ctx: Context, options: Option<ReplyArgs>): (r: Result<Outcome, ReplyError>)
    ensures r.Err? <==> !(200 <= CodeOf(options, 200) <= 299)
    ensures r.Err? ==> r.error == InvalidStatusCode(CodeOf(options, 200))
    ensures options.None? ==> r == Ok(Outcome(ctx, ReplyArgs(Some(200), None, Some([]), None), [AcceptedEvent(200, None)]))
    ensures r.Ok? ==> r.value.ctx == ctx && r.value.reply == CheckedArgs(options, 200)
    ensures r.Ok? ==> r.value.events == [AcceptedEvent(CodeOf(options, 200), None)]
  {
    var args := CheckedArgs(options, 200);
    var code := CodeOf(options, 200);
    if 200 <= code <= 299 then Ok(Outcome(ctx, args, [AcceptedEvent(code, None)]))
    else Err(InvalidStatusCode(code))
  }

  /** The cause `reject` reports: the caller's reason phrase, if any. */
  function ReasonCause(options: Option<ReplyArgs>): Option<Cause> {
    if options.Some? && options.value.reasonPhrase.Some? then Some(Reason(options.value.reasonPhrase.value)) else None
  }

  /** `reject(options)`: default 480, codes 300..699 only; emits `rejected`
      and then `failed`, both with the same payload. */
  function Reject(ctx: Context, options: Option<ReplyArgs>): (r: Result<Outcome, ReplyError>)
    ensures r.Err? <==> !(300 <= CodeOf(options, 480) <= 699)
    ensures r.Err? ==> r.error == InvalidStatusCode(CodeOf(options, 480))
    ensures options.None? ==> r == Ok(Outcome(ctx, ReplyArgs(Some(480), None, Some([]), None),
                                              [RejectedEvent(FailurePayload(480, None, None)), FailedEvent(FailurePayload(480, None, None))]))
    ensures r.Ok? ==> r.value.ctx == ctx && r.value.reply == CheckedArgs(options, 480)
    ensures r.Ok? ==> |r.value.events| == 2 && r.value.events[0].RejectedEvent? && r.value.events[1].FailedEvent?
    ensures r.Ok? ==> r.value.events[0].payload == r.value.events[1].payload
                      == FailurePayload(CodeOf(options, 480), None, ReasonCause(options))
  {
    var args := CheckedArgs(options, 480);
    var code := CodeOf(options, 480);
    var payload := FailurePayload(code, None, ReasonCause(options));
    if 300 <= code <= 699 then Ok(Outcome(ctx, args, [RejectedEvent(payload), FailedEvent(payload)]))
    else Err(InvalidStatusCode(code))
  }

  /** `reply(options)`: the four fields go to `request.reply` unchanged, with
      no check and no event. */
  function Reply(ctx: Context, options: ReplyArgs): (r: Outcome)
    ensures r.ctx == ctx && r.reply == options && r.events == []
  {
    Outcome(ctx, options, [])
  }

  /** `onRequestTimeout()`: `failed` with code 0 (nothing was sent), no response. */
  function OnRequestTimeout(ctx: Context): (r: seq<Event>)
    ensures r == [FailedEvent(FailurePayload(0, None, Some(RequestTimeout)))]
  {
    [FailedEvent(FailurePayload(0, None, Some(RequestTimeout)))]
  }

  /** `onTransportError()`: `failed` with code 0, no response. */
  function OnTransportError(ctx: Context): (r: seq<Event>)
    ensures r == [FailedEvent(FailurePayload(0, None, Some(ConnectionError)))]
  {
    [FailedEvent(FailurePayload(0, None, Some(ConnectionError)))]
  }

  /** Every checked operation is `reply` with defaults filled in, restricted
      to its class: when it succeeds it sends exactly what `reply` would send
      for the same options with the default code and headers supplied. */
  lemma CheckedOperationsAreGuardedReplies(ctx: Context, options: Option<ReplyArgs>, replied: string)
    ensures Progress(ctx, options, replied).Ok? ==>
      Progress(ctx, options, replied).value.reply == Reply(ctx, CheckedArgs(options, 180)).reply
    ensures Accept(ctx, options).Ok? ==> Accept(ctx, options).value.reply == Reply(ctx, CheckedArgs(options, 200)).reply
    ensures Reject(ctx, options).Ok? ==> Reject(ctx, options).value.reply == Reply(ctx, CheckedArgs(options, 480)).reply
    ensures options.Some? && options.value.statusCode.Some? && options.value.extraHeaders.Some? ==>
      (Progress(ctx, options, replied).Ok? ==> Progress(ctx, options, replied).value.reply == Reply(ctx, options.value).reply)
      && (Accept(ctx, options).Ok? ==> Accept(ctx, options).value.reply == Reply(ctx, options.value).reply)
      && (Reject(ctx, options).Ok? ==> Reject(ctx, options).value.reply == Reply(ctx, options.value).reply)
  {
  }

  /** The three checked operations split the codes 100..699 between them:
      every such code is let through by exactly one of them, and none of
      them lets through a code outside 100..699. */
  lemma CheckedRangesPartitionStatusCodes(ctx: Context, code: int, reason: Option<string>, replied: string)
    ensures var o := Some(ReplyArgs(Some(code), reason, None, None));
      var admitted := [Progress(ctx, o, replied).Ok?, Accept(ctx, o).Ok?, Reject(ctx, o).Ok?];
      (100 <= code <= 699 ==> (admitted[0] <==> !admitted[1] && !admitted[2]) && (admitted[1] ==> !admitted[2])
                              && (admitted[0] || admitted[1] || admitted[2]))
      && (!(100 <= code <= 699) ==> !admitted[0] && !admitted[1] && !admitted[2])
  {
  }

  /** A listener on `failed` can tell a rejection from a system failure by
      the code alone: a rejection always carries the code it sent (3xx-6xx),
      a timeout or transport error carries 0 because nothing was sent. */
  lemma SystemFailuresCarryNoStatusCode(ctx: Context, options: Option<ReplyArgs>)
    ensures var r := Reject(ctx, options);
      r.Ok? ==> forall e :: e in r.value.events && e.FailedEvent? ==> 300 <= e.payload.code <= 699
    ensures forall e :: e in OnRequestTimeout(ctx) + OnTransportError(ctx) ==> e.FailedEvent? && e.payload.code == 0
  {
  }

  /** Whatever the application answers, the guard keeps the server
      transaction `new ServerContext` chose: INVITE requests stay on an
      INVITE server transaction, every other method on a non-INVITE one. */
  lemma OperationsKeepTransaction(ua: UserAgent, request: IncomingRequest, options: Option<ReplyArgs>,
                                  args: ReplyArgs, replied: string)
    ensures var ctx := New(ua, request);
      Progress(ctx, options, replied).Ok? ==> Progress(ctx, options, replied).value.ctx.transaction == ctx.transaction
    ensures var ctx := New(ua, request);
      Accept(ctx, options).Ok? ==> Accept(ctx, options).value.ctx.transaction == ctx.transaction
    ensures var ctx := New(ua, request);
      Reject(ctx, options).Ok? ==> Reject(ctx, options).value.ctx.transaction == ctx.transaction
    ensures Reply(New(ua, request), args).ctx.transaction == New(ua, request).transaction
    ensures New(ua, request).transaction.InviteServerTransaction? <==> request.sipMethod == INVITE
  {
  }

  /** A code the guard lets through is classified by the receiving client
      correlator as the outcome the operation stands for: `progress` replies
      arrive as progress, `accept` replies as success, `reject` replies as failure. */
  lemma GuardedCodesMatchClientClassification(ctx: Context, options: Option<ReplyArgs>, replied: string, message: string)
    ensures Progress(ctx, options, replied).Ok? ==>
      Request.ReceiveResponse(Response(CodeOf(options, 180), message))[0].event.Progress?
    ensures Accept(ctx, options).Ok? ==>
      Request.ReceiveResponse(Response(CodeOf(options, 200), message))[0].event.Succeeded?
    ensures Reject(ctx, options).Ok? ==>
      Request.ReceiveResponse(Response(CodeOf(options, 480), message))[0].event.Failed?
  {
  }
}

=== FILE: status_codes.dfy ===
/** SIP status codes as the client request correlator sees them.

    The source classifies a code by testing its decimal text against the
    patterns `^1[0-9]{2}$` and `^2[0-9]{2}$`. This module models that text
    test literally (`DecimalString`, `MatchesClassPattern`) and proves it
    equal to the integer ranges 100..199 and 200..299, the provisional and
    success classes of section 7.2 of RFC 3261. */
module StatusCodes {

  /** The response classes the correlator distinguishes. */
  datatype ResponseClass = Provisional | Success | Failure

  /** The class given by closed integer ranges: 1xx, 2xx, everything else. */
  function Classify(code: int): ResponseClass {
    if 100 <= code <= 199 then Provisional
    else if 200 <= code <= 299 then Success
    else Failure
  }

  predicate IsDigit(c: char) {
    '0' <= c <= '9'
  }

  function DigitChar(d: nat): (c: char)
    requires d < 10
    ensures IsDigit(c)
  {
    ('0' as int + d) as char
  }

  /** The decimal digits of `n`, most significant first, without leading zeros. */
  function Digits(n: nat): (s: string)
    ensures |s| >= 1
    ensures forall i :: 0 <= i < |s| ==> IsDigit(s[i])
    decreases n
  {
    if n < 10 then [DigitChar(n)] else Digits(n / 10) + [DigitChar(n % 10)]
  }

  /** What JavaScript's `String(n)` yields for an integer `n` with
      `|n| < 10^21`: a minus sign for negative values, then the decimal
      digits. Larger magnitudes are written in exponent form there (`1e+21`);
      such text is longer than three characters, so it fails the class
      patterns exactly as the digit string does. */
  function DecimalString(n: int): string {
    if n < 0 then "-" + Digits(-n) else Digits(n)
  }

  /** The pattern `^L[0-9]{2}$` for a leading character `L`: exactly three
      characters, the first `L`, the other two decimal digits. */
  predicate MatchesClassPattern(s: string, lead: char) {
    |s| == 3 && s[0] == lead && IsDigit(s[1]) && IsDigit(s[2])
  }

  /** The classification as the source writes it: the 1xx pattern, then the
      2xx pattern, then the default branch. Its contract is the range reading. */
  function PatternClass(code: int): (r: ResponseClass)
    ensures r == Provisional <==> 100 <= code <= 199
    ensures r == Success <==> 200 <= code <= 299
    ensures r == Failure <==> !(100 <= code <= 299)
  {
    PatternIffRange(code, 1);
    PatternIffRange(code, 2);
    var text := DecimalString(code);
    if MatchesClassPattern(text, '1') then Provisional
    else if MatchesClassPattern(text, '2') then Success
    else Failure
  }

  /** The pattern-based and the range-based classifications agree on every code. */
  lemma PatternClassIsClassify(code: int)
    ensures PatternClass(code) == Classify(code)
  {
  }

  lemma DigitCharInjective(a: nat, b: nat)
    requires a < 10 && b < 10
    ensures DigitChar(a) == DigitChar(b) <==> a == b
  {
  }

  /** Numbers below 100 have at most two digits. */
  lemma {:induction false} ShortDigits(n: nat)
    requires n < 100
    ensures |Digits(n)| <= 2
  {
    if n >= 10 {
      assert Digits(n) == Digits(n / 10) + [DigitChar(n % 10)];
      assert |Digits(n / 10)| == 1;
    }
  }

  /** A number in 100..999 has exactly three digits, each the matching decimal place. */
  lemma {:induction false} ThreeDigits(n: nat)
    requires 100 <= n <= 999
    ensures Digits(n) == [DigitChar(n / 100), DigitChar(n / 10 % 10), DigitChar(n % 10)]
  {
    var m := n / 10;
    assert 10 <= m <= 99;
    assert Digits(m) == [DigitChar(m / 10), DigitChar(m % 10)];
    assert m / 10 == n / 100;
    assert Digits(n) == Digits(m) + [DigitChar(n % 10)];
  }

  /** Numbers from 1000 upwards have at least four digits. */
  lemma {:induction false} LongDigits(n: nat)
    requires n >= 1000
    ensures |Digits(n)| >= 4
    decreases n
  {
    var m := n / 10;
    assert Digits(n) == Digits(m) + [DigitChar(n % 10)];
    if m >= 1000 {
      LongDigits(m);
    } else {
      ThreeDigits(m);
    }
  }

  /** The pattern with leading digit `d` matches the decimal text of `code`
      exactly when `code` lies in `d`00..`d`99. */
  lemma {:induction false} PatternIffRange(code: int, d: nat)
    requires 1 <= d <= 9
    ensures MatchesClassPattern(DecimalString(code), DigitChar(d)) <==> d * 100 <= code <= d * 100 + 99
  {
    var text := DecimalString(code);
    if code < 0 {
      assert text[0] == '-';
      assert !IsDigit(text[0]);
    } else if code < 100 {
      ShortDigits(code);
    } else if code >= 1000 {
      LongDigits(code);
    } else {
      ThreeDigits(code);
      DigitCharInjective(code / 100, d);
    }
  }
}
